=== FILE: README.md ===
# Consistent-hash ring

A Dafny model of the consistent-hash ring in `consistent.go`, which
distributes keys over a changing set of back-end handles.

Each registered node is placed at `NumberOfReplicas` positions on a 32-bit
circle. Replica `i` of node `e` goes to the position that the key
`Itoa(i) + e.Name()` hashes to. A name is served by the node owning the first
occupied position strictly after the name's hash, wrapping round to the
lowest position.

The ring state (`Consistent.Ring`) has these parts:

- `circle`: the placement table, position to owner.
- `members`: the set of registered handles.
- `sortedHashes`: the cache of occupied positions in ascending order.
- `replicas`: `NumberOfReplicas`.
- `count`: the registration counter.
- `hash`: the ring's hash function.

The modules follow the program's structure:

- `Wrappers`: `Option` and `Result`.
- `Seqs`: element sets, duplicates, and the first-appearance list `Dedup`.
- `Nodes`: node handles, decimal rendering and replica keys (`elementKey`).
- `Positions`: the sorted cache (`updateSortedHashes`), `sort.Search`, `search`, and the reference notion of a clockwise successor.
- `Walks`: the circular walks of `GetTwo` and `GetN`, over the placement table and the cache, and `sliceContainsMember`.
- `Consistent`: the ring state and every operation: `New`, `add`/`Add`, `remove`/`Remove`, `Set`, `Members`, `Get`, `GetTwo`, `GetN`.
- `RingProperties`: lemmas that relate several operations.

How the model is built:

- Mutations are pure functions from a ring to a ring. Each exported call is one atomic transition.
- The walks are methods whose loops mirror Go's index variable `i`, including the reset to 0 when it runs off the end.
- Each walk result is specified against a reference definition: `ClockwiseOwners`, the distinct owners in first-appearance order along one round of the circle from the position `search` picks.

Three preconditions are implicit in the code and are stated in the model:

- `updateSortedHashes` divides by `NumberOfReplicas*4`, computed in Go's `int`, which is 64 bits wide on 64-bit targets. There the product is 0 exactly when the replica count is a multiple of 2^62, 0 included. Every operation that rebuilds the cache therefore requires `RebuildDivides(replicas)`.
- `GetN` allocates its result with the clamped limit as capacity, and `make` panics on a negative capacity before the walk starts. `GetN` therefore requires `GetNNoPanic`: an empty circle or a clamped limit of at least 0.
- The walk loops of `GetTwo` and `GetN` stop only through `break` when the walk starts at cache index 0: the guard `i != start` is never false there. `GetTwoTerminates` is the exact condition under which `GetTwo` returns. For a call that does not panic, `GetNTerminates` is the exact condition under which `GetN` returns.

The counter is not an invariant of the code as written: `add` and `remove` change it unconditionally. The code is followed here. The rest of the code reads `count` as the number of members: `GetTwo` takes its single-member exit when `count == 1` (consistent.go:178), and `GetN` clamps its limit to `count` (consistent.go:205-207). The drift is therefore recorded under "## Findings". `Set` uses the guarded variants `AddGuarded` and `RemoveGuarded`, which coincide with `add` and `remove` there.

## Model

| member | source | states |
|---|---|---|
| Nodes.Itoa | consistent.go:71 | `strconv.Itoa` writes decimal digits only, at least one, and starts with `0` exactly for 0 (no leading zeros) |
| Nodes.ItoaRoundTrip | consistent.go:71 | reading the decimal rendering back yields the number |
| Nodes.ElementKey | consistent.go:69-72 | the key is longer than the node's name and ends with it |
| Nodes.ElementKeyDecodes | consistent.go:69-72 | the part of the key before the name is decimal digits that read back as the replica index |
| Nodes.ItoaInjective | consistent.go:71 | different replica indexes render as different decimal strings |
| Nodes.ElementKeyInjective | consistent.go:69-72 | the replica keys of one node are pairwise distinct, one per index |
| Nodes.ElementKeysOfDifferentNodesCanCoincide | consistent.go:70-72 | with no separator, replica 1 of a node named "0a" and replica 10 of a node named "a" get the same key |
| Consistent.New | consistent.go:58-67 | a new ring is empty, has 20 replicas per node, satisfies the representation invariant, uses the hash function it was given, and its counter agrees with the (empty) membership |
| Consistent.NewWithReplicas | consistent.go:60 | setting NumberOfReplicas before the first add gives an empty, valid ring with that replica count and the given hash function |
| Consistent.PlaceReplicas | consistent.go:83-85 | after the replica loop, the occupied positions are the old ones plus the node's replica positions; those map to the node, and every other position keeps its owner |
| Consistent.DeleteReplicas | consistent.go:100-102 | after the delete loop, the occupied positions are the old ones minus the node's replica positions, and the rest keep their owners |
| Consistent.Add | consistent.go:74-89 | every replica position of `e` maps to `e`; positions outside the replica set are untouched; `e` is registered; the counter rises by one even for a registered `e`; the cache matches the table; owners stay registered |
| Consistent.Remove | consistent.go:91-106 | no replica position of `e` stays occupied; other positions are untouched; `e` is unregistered; the counter falls by one even for an absent `e`; the cache matches the table; owners stay registered |
| Consistent.AddGuarded | consistent.go:82-89 | the table, membership and cache are exactly those of `add`, but the counter rises only for a new node, so an accurate counter stays accurate |
| Consistent.RemoveGuarded | consistent.go:99-106 | the table, membership and cache are exactly those of `remove`, but the counter falls only for a registered node, so an accurate counter stays accurate |
| Consistent.Members | consistent.go:134-142 | the result lists exactly the registered handles, each once |
| Positions.UpdateSortedHashes | consistent.go:248-259 | the rebuilt cache is strictly ascending and holds exactly the occupied positions |
| Positions.StrictlyAscendingUnique | consistent.go:254-258 | two strictly ascending sequences over the same positions are equal, so the rebuild's result does not depend on map iteration order or on reusing the storage |
| RingProperties.RebuildIsStable | consistent.go:248-259 | rebuilding the cache of a consistent ring reproduces the cache |
| Positions.SortSearch | consistent.go:157-160 | the bisection returns the index that splits the range into entries at most the key and entries above it |
| Positions.Search | consistent.go:156-165 | `search` returns an index inside a non-empty cache: the first entry above the key, or 0 when every entry is at most the key |
| Positions.SearchFindsSuccessor | consistent.go:156-165 | the position `search` picks is the clockwise successor of the key among the cached positions |
| Consistent.StartIndex | consistent.go:151-152 | the index `search` returns for the name's hash is inside the cache, and its position is the clockwise successor of that hash |
| Consistent.OwnerPosition | consistent.go:151-153 | the position `Get` reads is occupied and is the clockwise successor of the name's hash |
| Consistent.Get | consistent.go:144-154 | fails with ErrEmptyCircle exactly on an empty circle; otherwise returns the owner of the clockwise successor of the name's hash, which is the first clockwise owner, and a registered node when every owner is registered |
| Walks.WalkCoversOwners | consistent.go:184-192 | one round of the circular walk meets every owner on the circle and nothing else |
| Consistent.ClockwiseOwnersAreOwners | consistent.go:223-234 | the clockwise owner list holds every owner on the circle exactly once |
| Walks.SliceContainsMember | consistent.go:261-268 | reports true exactly when the handle occurs in the slice |
| Walks.NextOwner | consistent.go:182-193 | with two or more owners, the walk returns the second clockwise owner, which differs from the first; with one owner (and a start other than 0), it returns the first owner again |
| Consistent.GetTwo | consistent.go:167-194 | fails exactly on an empty circle; the first result is `Get`'s; with a counter of 1 there is no second; otherwise the second is the next distinct clockwise owner, or the first again when only one owner exists |
| Walks.CollectOwners | consistent.go:209-234 | the collecting walk returns the first `limit` clockwise owners for a limit in 1..owners, or all of them for a limit of 0 or above the owner count (a negative limit never reaches the walk) |
| Walks.CollectRest | consistent.go:223-234 | the loop part of the walk, entered with the first owner collected, ends with the limited clockwise owner list |
| Walks.CollectAdvance | consistent.go:227-233 | one loop step extends the distinct owners of the walk prefix; reaching the limit yields the limited list; otherwise the walk from index 0 is not yet exhausted |
| Walks.LimitKeepsOrder | consistent.go:217-233 | the limited list starts with the first owner, has no duplicates, draws from the owners, has exactly `limit` entries when the limit is in range, and is every owner otherwise |
| Consistent.Clamp | consistent.go:205-207 | the clamped limit is the smaller of the request and the counter |
| Consistent.GetN | consistent.go:196-237 | fails exactly on an empty circle; otherwise, when the clamped limit is not negative (Go panics then), returns the first min(n, count) distinct clockwise owners (all owners when that is 0 or at least the owner count); starts with `Get`'s owner; has no duplicates; holds circle owners only |
| RingProperties.NegativeCounterPanicsGetN | consistent.go:205-213 | with a negative counter and an occupied circle, every `GetN` call reaches `make` with a negative capacity |
| RingProperties.RemoveTwiceThenAddPanicsGetN | consistent.go:99-106 | removing an unregistered node twice from an empty ring and then adding a node gives an occupied circle with counter -1, on which every `GetN` panics |
| Seqs.DedupDistinct | consistent.go:228-230 | keeping an element only when the list does not hold it yet gives each element of the walk exactly once |
| Seqs.DedupPrefix | consistent.go:231-233 | stopping the walk early yields a prefix of the full first-appearance list |
| Consistent.RemoveStale | consistent.go:113-124 | the first loop of `Set` unregisters exactly the members not listed and leaves none of their replica positions occupied, even one a listed node owned through a shared key; the counter falls by their number; positions outside their replica sets are untouched |
| Consistent.AddMissing | consistent.go:125-131 | the second loop of `Set` registers exactly the listed handles not yet present and writes every replica position of each of them, owned by a newly added handle; the counter rises by their number; positions of other nodes are untouched |
| Consistent.Set | consistent.go:108-132 | afterwards the membership is exactly the listed handles; handles already registered are not added again, because the counter changes by the number of added minus removed nodes, so an accurate counter stays accurate; every replica position of a newly added handle is occupied by a newly added handle; a replica position of a removed member stays occupied only when it is also a replica position of an added handle; the cache stays consistent; only positions of added or removed nodes change |
| RingProperties.AddMovesKeysOnlyToAddedNode | consistent.go:82-89 | after adding a node, every name is served by the node that served it before or by the added node |
| RingProperties.RemoveMovesOnlyKeysOfRemovedNode | consistent.go:99-106 | when no hash collision ties other nodes to `b`'s positions, removing `b` leaves every name not served by `b` where it was, and no name is served by `b` afterwards |
| RingProperties.RemoveAbsentKeepsLookups | consistent.go:99-106 | when none of an unregistered node's replica positions is occupied, removing it leaves the table, membership, cache and every lookup unchanged |
| RingProperties.RemoveAbsentDeletesCollidingPosition | consistent.go:100-102 | without that hypothesis the claim fails: removing the never-registered node "a" deletes the position of key "10a", which the registered node "0a" owns |
| RingProperties.RemoveUndoesAdd | consistent.go:82-106 | removing a node just added on free positions restores the table, the cache and the counter |
| RingProperties.AddTwiceCountsTwice | consistent.go:88 | adding a node twice raises the counter by two but the membership by at most one, so the counter is wrong |
| RingProperties.AddTwiceLeavesOneOwnerCountedTwice | consistent.go:178-193 | on an empty ring, adding one node twice leaves a single owner with a counter of 2, so `GetTwo` skips its single-node exit |
| RingProperties.RemoveAbsentCountsNegative | consistent.go:105 | removing an unregistered node leaves the membership unchanged but lowers the counter below it |
| RingProperties.AddGuardedTwiceCountsOnce | consistent.go:82-89 | with the membership guard, adding a node twice leaves the counter equal to the membership size |
| RingProperties.RemoveGuardedAbsentKeepsCount | consistent.go:99-106 | with the membership guard, removing an unregistered node leaves the counter alone |

## Left out

- Locking (`sync.RWMutex` in the exported wrappers): each exported call is modelled as one atomic transition.
- CRC-32 itself: `hashKey` is the ring's uninterpreted `hash` parameter. Both of its branches hash exactly the key's bytes; the 64-byte scratch buffer is an allocation detail, and the unused `scratch` field is left out.
- `lineProtocol.WriteCloser` is not part of this model: a handle is a `Node` with an identity and a name, and its I/O methods are irrelevant here.
- The capacity heuristic of `updateSortedHashes`: the reallocation choice does not change the contents. Only its division by `NumberOfReplicas*4` is kept, as the precondition `RebuildDivides`. That precondition models the wrap of the product on 64-bit targets. On 32-bit targets `int` is 32 bits wide and the product is already 0 for the multiples of 2^30; those targets are not modelled. Negative replica counts are allowed, as in Go, where they place no replicas.
- The 64-bit width of `NumberOfReplicas` itself and of `count`: integers are unbounded here. Reaching the counter's bounds takes 2^63 calls. A replica count beyond 64 bits cannot be assigned in Go.
- Changing `NumberOfReplicas` after nodes were added: the replica count is fixed per ring (`New`, `NewWithReplicas`), since a mid-life change makes the placement of existing nodes inconsistent with their registration.
- Map iteration order:
  - `Members` returns the handles in an unspecified order, and its contract says which handles and that there are no repeats.
  - `updateSortedHashes` is built by repeated extraction of the least position instead of collect-then-sort. `Positions.StrictlyAscendingUnique` shows the result is the same.
  - `Set`'s first loop visits the members in an unspecified order.
- Consistent.GetTwo: when the walk starts at cache index 0 with a single owner and a counter other than 1, the Go loop never returns. The member requires the exact termination condition instead of modelling divergence, and so does Walks.NextOwner.
- Consistent.GetN: on a non-empty circle with a negative clamped limit (a negative `n`, or a negative counter), Go panics in `make` (consistent.go:213). The member requires `GetNNoPanic` instead of modelling the panic, and Walks.CollectOwners requires a limit of at least 0.
- Consistent.GetN: when the walk starts at cache index 0 with fewer distinct owners than the clamped limit, or with a clamped limit of 0, the Go loop never returns. The member requires the exact termination condition instead, and so do Walks.CollectOwners and Walks.CollectRest.
- RingProperties.RemoveAbsentKeepsLookups: holds only when none of the removed node's replica positions is occupied. `remove` deletes positions whoever owns them (consistent.go:100-102). Because replica keys of different nodes can coincide, removing a never-registered node can delete a registered node's position; `RingProperties.RemoveAbsentDeletesCollidingPosition` exhibits this. The model keeps the source's behaviour.
- Consistent.Get, Consistent.GetTwo, Consistent.GetN: the contracts are stated for a ring whose cache matches the table (`CacheConsistent`). That holds after every operation; a hand-built inconsistent ring is not covered.

## Findings

| source | as written | input that shows it | evidently intended | confidence | as-written member | corrected member |
|---|---|---|---|---|---|---|
| consistent.go:88 | `add` increments `count` even when the node is already registered | `Add(A)` twice on a new ring: one member, one owner, `count == 2`; `GetTwo` then answers `A` twice, or never returns when the walk starts at index 0 | re-adding a registered node leaves `count` equal to the number of members | not executed | RingProperties.AddTwiceCountsTwice | Consistent.AddGuarded |
| consistent.go:105 | `remove` decrements `count` even when the node is not registered | `Remove(A)` on a new ring: no members, `count == -1`; once a node is added after a second such removal, the circle is occupied with `count == -1`, and every `GetN` panics in `make` (consistent.go:213) | removing an unregistered node leaves `count` unchanged | not executed | RingProperties.RemoveAbsentCountsNegative | Consistent.RemoveGuarded |

=== FILE: consistent.dfy ===
/** The consistent-hash ring: its state, the mutations that rewrite it and the
    clockwise lookups over it. Locking is not modelled: every exported call is
    one atomic transition from a ring value to a ring value or a result. */
module Consistent {
  import opened Wrappers
  import opened Seqs
  import opened Nodes
  import opened Positions
  import opened Walks

  /** The 32-bit hash of a key (CRC-32/IEEE over the key's bytes). */
  type Hasher = string -> Pos

  /** The only error a query can report. */
  datatype RingError = ErrEmptyCircle

  /** The ring state. `circle` maps occupied positions to their owner,
      `members` is the registered handles, `sortedHashes` caches the occupied
      positions in ascending order, `replicas` is NumberOfReplicas, `count` is
      the registration counter and `hash` the ring's fixed hash function. */
  datatype Ring = Ring(
    circle: map<Pos, Node>,
    members: set<Node>,
    sortedHashes: seq<Pos>,
    replicas: int,
    count: int,
    hash: Hasher)

  const DefaultReplicas: int := 20

  /** The positions replicas `0 .. n-1` of `e` hash to. */
  function ReplicaPositions(hash: Hasher, e: Node, n: int): set<Pos>
  {
    set i: nat | i < n :: hash(ElementKey(e, i))
  }

  lemma ReplicaPositionsStep(hash: Hasher, e: Node, n: int)
    requires n >= 1
    ensures ReplicaPositions(hash, e, n) == ReplicaPositions(hash, e, n - 1) + {hash(ElementKey(e, n - 1))}
  {
    forall p | p in ReplicaPositions(hash, e, n)
      ensures p in ReplicaPositions(hash, e, n - 1) + {hash(ElementKey(e, n - 1))}
    {
      var i: nat :| i < n && p == hash(ElementKey(e, i));
      if i < n - 1 {
        assert p in ReplicaPositions(hash, e, n - 1);
      }
    }
  }

  /** The cache holds exactly the occupied positions, in ascending order. */
  ghost predicate CacheConsistent(r: Ring)
  {
    StrictlyAscending(r.sortedHashes) && Elems(r.sortedHashes) == r.circle.Keys
  }

  /** Every occupied position belongs to a registered node and is one of that
      node's replica positions. */
  ghost predicate OwnersRegistered(r: Ring)
  {
    forall p :: p in r.circle ==>
      r.circle[p] in r.members && p in ReplicaPositions(r.hash, r.circle[p], r.replicas)
  }

  /** The representation invariant every ring reachable from New keeps. */
  ghost predicate Valid(r: Ring)
  {
    CacheConsistent(r) && OwnersRegistered(r)
  }

  /** The counter agrees with the number of registered nodes. */
  ghost predicate CountAccurate(r: Ring)
  {
    r.count == |r.members|
  }

  /** An empty ring with the default 20 replicas per node. */
  function New(hash: Hasher): (r: Ring)
    ensures Valid(r) && CountAccurate(r)
    ensures |r.circle| == 0 && r.members == {} && r.replicas == DefaultReplicas
    ensures r.hash == hash
    ensures RebuildDivides(r.replicas)
  {
    Ring(map[], {}, [], DefaultReplicas, 0, hash)
  }

  /** An empty ring whose NumberOfReplicas was set before the first node was added. */
  function NewWithReplicas(hash: Hasher, replicas: int): (r: Ring)
    ensures Valid(r) && CountAccurate(r)
    ensures |r.circle| == 0 && r.members == {} && r.replicas == replicas
    ensures r.hash == hash
  {
    New(hash).(replicas := replicas)
  }

  /** `updateSortedHashes` divides by `NumberOfReplicas*4`, computed in Go's
      `int`, which is 64 bits wide on 64-bit targets: the product wraps to 0
      exactly for the multiples of 2^62
      (0 among them), so only the other replica counts can rebuild the cache. */
  predicate RebuildDivides(replicas: int)
  {
    replicas % 0x4000_0000_0000_0000 != 0
  }

  /** The replica loop of `add`: replicas 0, 1, ..., n-1 of `e` are written in
      turn, each overwriting whatever owned its position. */
  function PlaceReplicas(circle: map<Pos, Node>, hash: Hasher, e: Node, n: int): (c: map<Pos, Node>)
    ensures c.Keys == circle.Keys + ReplicaPositions(hash, e, n)
    ensures forall p :: p in ReplicaPositions(hash, e, n) ==> c[p] == e
    ensures forall p :: p in circle && p !in ReplicaPositions(hash, e, n) ==> c[p] == circle[p]
    decreases n
  {
    if n <= 0 then circle
    else
      ReplicaPositionsStep(hash, e, n);
      PlaceReplicas(circle, hash, e, n - 1)[hash(ElementKey(e, n - 1)) := e]
  }

  /** The replica loop of `remove`: the positions of replicas 0 .. n-1 of `e`
      are deleted, whoever owns them now. */
  function DeleteReplicas(circle: map<Pos, Node>, hash: Hasher, e: Node, n: int): (c: map<Pos, Node>)
    ensures c.Keys == circle.Keys - ReplicaPositions(hash, e, n)
    ensures forall p :: p in c ==> c[p] == circle[p]
    decreases n
  {
    if n <= 0 then circle
    else
      ReplicaPositionsStep(hash, e, n);
      DeleteReplicas(circle, hash, e, n - 1) - {hash(ElementKey(e, n - 1))}
  }

  /** `add` (and `Add`): place every replica of `e`, register `e`, rebuild the
      cache and increment the counter, whether or not `e` was registered
      already. The cache rebuild divides by NumberOfReplicas*4, hence the
      precondition. */
  function Add(r: Ring, e: Node): (r': Ring)
    requires RebuildDivides(r.replicas)
    ensures forall i: nat :: i < r.replicas ==>
              r.hash(ElementKey(e, i)) in r'.circle && r'.circle[r.hash(ElementKey(e, i))] == e
    ensures forall p :: p !in ReplicaPositions(r.hash, e, r.replicas) ==>
              (p in r'.circle <==> p in r.circle) && (p in r.circle ==> r'.circle[p] == r.circle[p])
    ensures r'.members == r.members + {e}
    ensures r'.count == r.count + 1
    ensures r'.replicas == r.replicas && r'.hash == r.hash
    ensures CacheConsistent(r')
    ensures OwnersRegistered(r) ==> OwnersRegistered(r')
  {
    var circle := PlaceReplicas(r.circle, r.hash, e, r.replicas);
    assert forall i: nat :: i < r.replicas ==> r.hash(ElementKey(e, i)) in ReplicaPositions(r.hash, e, r.replicas);
    r.(circle := circle, members := r.members + {e},
       sortedHashes := UpdateSortedHashes(circle.Keys), count := r.count + 1)
  }

  /** `remove` (and `Remove`): delete every replica position of `e`,
      unregister `e`, rebuild the cache and decrement the counter, whether or
      not `e` was registered. */
  function Remove(r: Ring, e: Node): (r': Ring)
    requires RebuildDivides(r.replicas)
    ensures forall i: nat :: i < r.replicas ==> r.hash(ElementKey(e, i)) !in r'.circle
    ensures forall p :: p !in ReplicaPositions(r.hash, e, r.replicas) ==>
              (p in r'.circle <==> p in r.circle) && (p in r.circle ==> r'.circle[p] == r.circle[p])
    ensures r'.members == r.members - {e}
    ensures r'.count == r.count - 1
    ensures r'.replicas == r.replicas && r'.hash == r.hash
    ensures CacheConsistent(r')
    ensures OwnersRegistered(r) ==> OwnersRegistered(r')
  {
    var circle := DeleteReplicas(r.circle, r.hash, e, r.replicas);
    assert forall i: nat :: i < r.replicas ==> r.hash(ElementKey(e, i)) in ReplicaPositions(r.hash, e, r.replicas);
    r.(circle := circle, members := r.members - {e},
       sortedHashes := UpdateSortedHashes(circle.Keys), count := r.count - 1)
  }

  /** `add` with the counter incremented only for a node not yet registered. */
  function AddGuarded(r: Ring, e: Node): (r': Ring)
    requires RebuildDivides(r.replicas)
    ensures r'.circle == Add(r, e).circle && r'.members == Add(r, e).members
    ensures r'.sortedHashes == Add(r, e).sortedHashes
    ensures r'.replicas == r.replicas && r'.hash == r.hash
    ensures r'.count == if e in r.members then r.count else r.count + 1
    ensures CountAccurate(r) ==> CountAccurate(r')
  {
    assert e in r.members ==> r.members + {e} == r.members;
    assert e !in r.members ==> |r.members + {e}| == |r.members| + 1;
    Add(r, e).(count := if e in r.members then r.count else r.count + 1)
  }

  /** `remove` with the counter decremented only for a registered node. */
  function RemoveGuarded(r: Ring, e: Node): (r': Ring)
    requires RebuildDivides(r.replicas)
    ensures r'.circle == Remove(r, e).circle && r'.members == Remove(r, e).members
    ensures r'.sortedHashes == Remove(r, e).sortedHashes
    ensures r'.replicas == r.replicas && r'.hash == r.hash
    ensures r'.count == if e in r.members then r.count - 1 else r.count
    ensures CountAccurate(r) ==> CountAccurate(r')
  {
    Remove(r, e).(count := if e in r.members then r.count - 1 else r.count)
  }

  /** Set-form of `Members`: the registered handles, each exactly once, in
      whatever order the membership table is enumerated. */
  method Members(r: Ring) returns (m: seq<Node>)
    ensures Elems(m) == r.members
    ensures NoDuplicates(m)
  {
    m := [];
    var rest := r.members;
    while rest != {}
      invariant rest <= r.members
      invariant Elems(m) == r.members - rest
      invariant NoDuplicates(m)
      decreases rest
    {
      var k :| k in rest;
      assert Elems(m + [k]) == Elems(m) + {k};
      m := m + [k];
      rest := rest - {k};
    }
  }

  /** A consistent cache indexes occupied positions only. */
  lemma CacheOccupied(r: Ring)
    requires CacheConsistent(r)
    ensures Occupied(r.circle, r.sortedHashes)
  {
    forall j | 0 <= j < |r.sortedHashes|
      ensures r.sortedHashes[j] in r.circle
    {
      assert r.sortedHashes[j] in Elems(r.sortedHashes);
    }
  }

  /** The cache index whose position `search` picks for `name`. */
  function StartIndex(r: Ring, name: string): (i: nat)
    requires CacheConsistent(r) && |r.circle| > 0
    ensures i < |r.sortedHashes|
    ensures Occupied(r.circle, r.sortedHashes)
    ensures ClockwiseSuccessor(r.circle.Keys, r.hash(name), r.sortedHashes[i])
  {
    assert |r.sortedHashes| > 0 by {
      var p :| p in r.circle;
      assert p in Elems(r.sortedHashes);
    }
    CacheOccupied(r);
    SearchFindsSuccessor(r.sortedHashes, r.hash(name));
    Search(r.sortedHashes, r.hash(name))
  }

  /** The occupied position `Get` reads the owner of: the clockwise
      successor of the position `name` hashes to. */
  function OwnerPosition(r: Ring, name: string): (p: Pos)
    requires CacheConsistent(r) && |r.circle| > 0
    ensures p in r.circle
    ensures ClockwiseSuccessor(r.circle.Keys, r.hash(name), p)
  {
    SearchFindsSuccessor(r.sortedHashes, r.hash(name));
    r.sortedHashes[StartIndex(r, name)]
  }

  /** The distinct owners in order of first appearance along the clockwise
      walk that starts at the position `name` is looked up at. */
  ghost function ClockwiseOwners(r: Ring, name: string): seq<Node>
    requires CacheConsistent(r) && |r.circle| > 0
  {
    Dedup(Walk(r.circle, r.sortedHashes, StartIndex(r, name)))
  }

  /** One round of the walk meets every owner on the circle and nothing else,
      so the clockwise list holds every owner exactly once. */
  lemma ClockwiseOwnersAreOwners(r: Ring, name: string)
    requires CacheConsistent(r) && |r.circle| > 0
    ensures NoDuplicates(ClockwiseOwners(r, name))
    ensures Elems(ClockwiseOwners(r, name)) == r.circle.Values
    ensures |ClockwiseOwners(r, name)| == |r.circle.Values|
  {
    var w := Walk(r.circle, r.sortedHashes, StartIndex(r, name));
    WalkCoversOwners(r.circle, r.sortedHashes, StartIndex(r, name));
    DedupDistinct(w);
    DedupCardinality(w);
  }

  /** `Get`: the owner of the first occupied position clockwise from where
      `name` hashes, or ErrEmptyCircle on an empty circle. */
  function Get(r: Ring, name: string): (res: Result<Node, RingError>)
    requires CacheConsistent(r)
    ensures res.Failure? <==> |r.circle| == 0
    ensures res.Failure? ==> res.error == ErrEmptyCircle
    ensures res.Success? ==>
              exists p :: ClockwiseSuccessor(r.circle.Keys, r.hash(name), p) && r.circle[p] == res.value
    ensures res.Success? ==> res.value == ClockwiseOwners(r, name)[0]
    ensures res.Success? && OwnersRegistered(r) ==> res.value in r.members
  {
    if |r.circle| == 0 then Failure(ErrEmptyCircle)
    else
      var i := StartIndex(r, name);
      assert Walk(r.circle, r.sortedHashes, i)[0] == r.circle[r.sortedHashes[i]];
      Success(r.circle[OwnerPosition(r, name)])
  }

  /** When `GetTwo` returns at all: on an empty circle, with a counter of 1,
      with two owners to find, or when the walk does not start at index 0
      (the loop guard `i != start` can only stop a walk that starts elsewhere). */
  ghost predicate GetTwoTerminates(r: Ring, name: string)
    requires CacheConsistent(r)
  {
    || |r.circle| == 0
    || r.count == 1
    || |r.circle.Values| >= 2
    || StartIndex(r, name) != 0
  }

  /** `GetTwo`: the owner `Get` returns and, unless the counter is 1, the
      owner met next on the clockwise walk that differs from it. When the
      counter is other than 1 with a single owner, the walk ends back at
      its start and the second result is the first one again. */
  method GetTwo(r: Ring, name: string) returns (res: Result<(Node, Option<Node>), RingError>)
    requires CacheConsistent(r)
    requires GetTwoTerminates(r, name)
    ensures res.Failure? <==> |r.circle| == 0
    ensures res.Failure? ==> res.error == ErrEmptyCircle
    ensures res.Success? ==> Get(r, name) == Success(res.value.0)
    ensures res.Success? && r.count == 1 ==> res.value.1 == None
    ensures res.Success? && r.count != 1 && |r.circle.Values| >= 2 ==>
              && |ClockwiseOwners(r, name)| >= 2
              && res.value.1 == Some(ClockwiseOwners(r, name)[1])
              && res.value.1.value != res.value.0
    ensures res.Success? && r.count != 1 && |r.circle.Values| < 2 ==> res.value.1 == Some(res.value.0)
  {
    if |r.circle| == 0 {
      return Failure(ErrEmptyCircle);
    }
    var hs := r.sortedHashes;
    var i := StartIndex(r, name);
    var a := r.circle[hs[i]];
    if r.count == 1 {
      return Success((a, None));
    }
    ClockwiseOwnersAreOwners(r, name);
    var b := NextOwner(r.circle, hs, i, a);
    return Success((a, Some(b)));
  }

  /** `GetN`'s clamp: the requested number, lowered to the counter. */
  function Clamp(n: int, count: int): (m: int)
    ensures m <= n && m <= count
    ensures m == n || m == count
  {
    if count < n then count else n
  }

  /** When `GetN` does not panic: on a non-empty circle the clamped limit is
      the capacity of the result slice, and a negative capacity makes `make`
      panic before the walk starts. */
  predicate GetNNoPanic(r: Ring, n: int)
  {
    |r.circle| == 0 || Clamp(n, r.count) >= 0
  }

  /** When `GetN`, if it does not panic, returns at all: on an empty circle,
      when there are at least as many owners as the clamped limit (which is at
      least 1), or when the walk does not start at index 0. */
  ghost predicate GetNTerminates(r: Ring, name: string, n: int)
    requires CacheConsistent(r)
  {
    || |r.circle| == 0
    || 1 <= Clamp(n, r.count) <= |r.circle.Values|
    || StartIndex(r, name) != 0
  }

  /** `GetN`: up to `n` distinct owners (at most the counter's value), in order
      of first appearance along the clockwise walk from where `name` hashes;
      the first is `Get`'s owner. */
  method GetN(r: Ring, name: string, n: int) returns (res: Result<seq<Node>, RingError>)
    requires CacheConsistent(r)
    requires GetNNoPanic(r, n)
    requires GetNTerminates(r, name, n)
    ensures res.Failure? <==> |r.circle| == 0
    ensures res.Failure? ==> res.error == ErrEmptyCircle
    ensures res.Success? ==> res.value == Limit(ClockwiseOwners(r, name), Clamp(n, r.count))
    ensures res.Success? ==> |res.value| >= 1 && Get(r, name) == Success(res.value[0])
    ensures res.Success? ==> NoDuplicates(res.value) && Elems(res.value) <= r.circle.Values
    ensures res.Success? && 1 <= Clamp(n, r.count) <= |r.circle.Values| ==> |res.value| == Clamp(n, r.count)
    ensures res.Success? && OwnersRegistered(r) ==> Elems(res.value) <= r.members
    ensures res.Success? && (Clamp(n, r.count) == 0 || |r.circle.Values| <= Clamp(n, r.count)) ==>
              Elems(res.value) == r.circle.Values
  {
    if |r.circle| == 0 {
      return Failure(ErrEmptyCircle);
    }
    var limit := n;
    if r.count < limit {
      limit := r.count;
    }
    var start := StartIndex(r, name);
    ClockwiseOwnersAreOwners(r, name);
    var owners := CollectOwners(r.circle, r.sortedHashes, start, limit);
    LimitKeepsOrder(ClockwiseOwners(r, name), limit);
    return Success(owners);
  }

  /** `p` is not a replica position of any node in `es`. */
  ghost predicate Untouched(r: Ring, es: set<Node>, p: Pos)
  {
    forall e :: e in es ==> p !in ReplicaPositions(r.hash, e, r.replicas)
  }

  /** Bookkeeping of `Set`'s first loop: examining one more pending member
      keeps `removed` equal to the examined members that are not listed. */
  lemma StaleStep(members: set<Node>, listed: set<Node>, pending: set<Node>, removed: set<Node>, k: Node)
    requires pending <= members && k in pending
    requires removed == (members - pending) - listed
    ensures k !in removed && members - removed - {k} == members - (removed + {k})
    ensures k !in listed ==> removed + {k} == (members - (pending - {k})) - listed
    ensures k in listed ==> removed == (members - (pending - {k})) - listed
    ensures |removed + {k}| == |removed| + 1
  {
  }

  /** No replica position of a node in `removed` is occupied, whoever owned
      it: each of them was deleted from the table. */
  ghost predicate Vacated(circle: map<Pos, Node>, removed: set<Node>, hash: Hasher, replicas: int)
  {
    forall e, p :: e in removed && p in ReplicaPositions(hash, e, replicas) ==> p !in circle
  }

  /** Removing `k` deletes all of `k`'s replica positions and occupies
      nothing new, so the vacated set grows by `k`. */
  lemma VacatedStep(r: Ring, removed: set<Node>, k: Node)
    requires RebuildDivides(r.replicas)
    requires Vacated(r.circle, removed, r.hash, r.replicas)
    ensures Vacated(RemoveGuarded(r, k).circle, removed + {k}, r.hash, r.replicas)
  {
    var c := RemoveGuarded(r, k).circle;
    forall e, p | e in removed + {k} && p in ReplicaPositions(r.hash, e, r.replicas)
      ensures p !in c
    {
      if p in ReplicaPositions(r.hash, k, r.replicas) {
        var i: nat :| i < r.replicas && p == r.hash(ElementKey(k, i));
      }
    }
  }

  /** The first loop of `Set`: every registered node that `elements` does not
      list is removed (in any order: removals commute). */
  method RemoveStale(r: Ring, elements: seq<Node>) returns (r': Ring)
    requires RebuildDivides(r.replicas) || r.members <= Elems(elements)
    ensures r'.members == r.members * Elems(elements)
    ensures r'.count == r.count - |r.members - Elems(elements)|
    ensures r'.replicas == r.replicas && r'.hash == r.hash
    ensures CacheConsistent(r) ==> CacheConsistent(r')
    ensures OwnersRegistered(r) ==> OwnersRegistered(r')
    ensures forall p :: p in r.circle && Untouched(r, r.members - Elems(elements), p) ==>
              p in r'.circle && r'.circle[p] == r.circle[p]
    ensures r'.circle.Keys <= r.circle.Keys
    ensures Vacated(r'.circle, r.members - Elems(elements), r.hash, r.replicas)
  {
    r' := r;
    var pending := r.members;
    ghost var removed: set<Node> := {};
    while pending != {}
      invariant pending <= r.members
      invariant removed == (r.members - pending) - Elems(elements)
      invariant r'.members == r.members - removed
      invariant r'.count == r.count - |removed|
      invariant r'.replicas == r.replicas && r'.hash == r.hash
      invariant CacheConsistent(r) ==> CacheConsistent(r')
      invariant OwnersRegistered(r) ==> OwnersRegistered(r')
      invariant forall p :: p in r.circle && Untouched(r, removed, p) ==>
                  p in r'.circle && r'.circle[p] == r.circle[p]
      invariant r'.circle.Keys <= r.circle.Keys
      invariant Vacated(r'.circle, removed, r.hash, r.replicas)
      decreases pending
    {
      var k :| k in pending;
      var found := SliceContainsMember(elements, k);
      StaleStep(r.members, Elems(elements), pending, removed, k);
      if !found {
        VacatedStep(r', removed, k);
        r' := RemoveGuarded(r', k);
        removed := removed + {k};
      }
      pending := pending - {k};
    }
  }

  /** Bookkeeping of `Set`'s second loop: looking at one more listed node
      keeps `added` equal to the listed-so-far nodes that were not registered. */
  lemma MissingStep(members: set<Node>, seen: set<Node>, added: set<Node>, v: Node)
    requires added == seen - members
    ensures (members + seen) + {v} == members + (seen + {v})
    ensures v in members + seen ==> added == (seen + {v}) - members
    ensures v !in members + seen ==> added + {v} == (seen + {v}) - members
    ensures v !in members + seen ==> |added + {v}| == |added| + 1
  {
  }

  /** Every replica position of every node in `added` is occupied, and by a
      node in `added`: each of them was written into the table. */
  ghost predicate Placed(circle: map<Pos, Node>, added: set<Node>, hash: Hasher, replicas: int)
  {
    forall e, p :: e in added && p in ReplicaPositions(hash, e, replicas) ==>
      p in circle && circle[p] in added
  }

  /** Adding `v` writes all of `v`'s replica positions and overwrites only
      positions that now belong to `v`, so the placed set grows by `v`. */
  lemma PlacedStep(r: Ring, added: set<Node>, v: Node)
    requires RebuildDivides(r.replicas)
    requires Placed(r.circle, added, r.hash, r.replicas)
    ensures Placed(AddGuarded(r, v).circle, added + {v}, r.hash, r.replicas)
  {
    var c := AddGuarded(r, v).circle;
    forall e, p | e in added + {v} && p in ReplicaPositions(r.hash, e, r.replicas)
      ensures p in c && c[p] in added + {v}
    {
      if p in ReplicaPositions(r.hash, v, r.replicas) {
        var i: nat :| i < r.replicas && p == r.hash(ElementKey(v, i));
        assert c[p] == v;
      }
    }
  }

  /** The second loop of `Set`: every listed node not registered yet is
      added, in list order; a node listed twice is added once. */
  method AddMissing(r: Ring, elements: seq<Node>) returns (r': Ring)
    requires RebuildDivides(r.replicas) || Elems(elements) <= r.members
    ensures r'.members == r.members + Elems(elements)
    ensures r'.count == r.count + |Elems(elements) - r.members|
    ensures r'.replicas == r.replicas && r'.hash == r.hash
    ensures CacheConsistent(r) ==> CacheConsistent(r')
    ensures OwnersRegistered(r) ==> OwnersRegistered(r')
    ensures forall p :: p in r.circle && Untouched(r, Elems(elements) - r.members, p) ==>
              p in r'.circle && r'.circle[p] == r.circle[p]
    ensures forall p :: p in r'.circle ==> p in r.circle || !Untouched(r, Elems(elements) - r.members, p)
    ensures Placed(r'.circle, Elems(elements) - r.members, r.hash, r.replicas)
  {
    r' := r;
    ghost var added: set<Node> := {};
    var j := 0;
    while j < |elements|
      invariant 0 <= j <= |elements|
      invariant added == Elems(elements[..j]) - r.members
      invariant r'.members == r.members + Elems(elements[..j])
      invariant r'.count == r.count + |added|
      invariant r'.replicas == r.replicas && r'.hash == r.hash
      invariant CacheConsistent(r) ==> CacheConsistent(r')
      invariant OwnersRegistered(r) ==> OwnersRegistered(r')
      invariant forall p :: p in r.circle && Untouched(r, added, p) ==>
                  p in r'.circle && r'.circle[p] == r.circle[p]
      invariant forall p :: p in r'.circle ==> p in r.circle || !Untouched(r, added, p)
      invariant Placed(r'.circle, added, r.hash, r.replicas)
    {
      var v := elements[j];
      ElemsPrefixStep(elements, j);
      MissingStep(r.members, Elems(elements[..j]), added, v);
      if v !in r'.members {
        PlacedStep(r', added, v);
        r' := AddGuarded(r', v);
        added := added + {v};
      }
      j := j + 1;
    }
    assert elements[..j] == elements;
  }

  /** `Set`: afterwards exactly the listed nodes are registered. Registered
      nodes that are listed are left alone; only positions of the nodes
      removed or added can change. */
  method Set(r: Ring, elements: seq<Node>) returns (r': Ring)
    requires RebuildDivides(r.replicas) || r.members == Elems(elements)
    ensures r'.members == Elems(elements)
    ensures r'.count == r.count - |r.members - Elems(elements)| + |Elems(elements) - r.members|
    ensures r'.replicas == r.replicas && r'.hash == r.hash
    ensures CacheConsistent(r) ==> CacheConsistent(r')
    ensures OwnersRegistered(r) ==> OwnersRegistered(r')
    ensures forall p :: p in r.circle && Untouched(r, (r.members - Elems(elements)) + (Elems(elements) - r.members), p) ==>
              p in r'.circle && r'.circle[p] == r.circle[p]
    ensures forall p :: p in r'.circle ==> p in r.circle || !Untouched(r, Elems(elements) - r.members, p)
    ensures Placed(r'.circle, Elems(elements) - r.members, r.hash, r.replicas)
    ensures forall e, p :: e in r.members - Elems(elements) && p in ReplicaPositions(r.hash, e, r.replicas) ==>
              p !in r'.circle || !Untouched(r, Elems(elements) - r.members, p)
    ensures CountAccurate(r) ==> CountAccurate(r')
  {
    var kept := RemoveStale(r, elements);
    assert Elems(elements) - kept.members == Elems(elements) - r.members;
    r' := AddMissing(kept, elements);
    ReconcileCount(r.members, Elems(elements));
  }

  /** Removing the unlisted members and adding the unregistered listed nodes
      changes the number of members to the number of listed nodes. */
  lemma ReconcileCount(members: set<Node>, listed: set<Node>)
    ensures |members| - |members - listed| + |listed - members| == |listed|
  {
    assert members == (members - listed) + (members * listed);
    assert listed == (listed - members) + (members * listed);
  }
}

=== FILE: nodes.dfy ===
/** Node handles and the replica keys derived from their names. */
module Nodes {

  /** A node handle. `id` stands for the handle's identity (the source compares
      handles with interface equality); `name` is what replica keys are built
      from. Two handles with the same name but different ids are different
      nodes that share every replica position. */
  datatype Node = Node(id: nat, name: string)

  /** The decimal digit for `d`. */
  function Digit(d: nat): char
    requires d < 10
  {
    (('0' as int) + d) as char
  }

  predicate IsDigit(c: char)
  {
    '0' <= c <= '9'
  }

  /** Decimal rendering of a non-negative integer without leading zeros, as
      `strconv.Itoa` writes it. */
  function Itoa(i: nat): (s: string)
    ensures |s| >= 1
    ensures i >= 10 ==> |s| >= 2
    ensures forall c :: c in s ==> IsDigit(c)
    ensures s[0] == '0' <==> i == 0
    decreases i
  {
    if i < 10 then [Digit(i)] else Itoa(i / 10) + [Digit(i % 10)]
  }

  /** The number a string of decimal digits denotes. */
  function DecimalValue(s: string): int
  {
    if |s| == 0 then 0 else DecimalValue(s[..|s| - 1]) * 10 + (s[|s| - 1] as int - '0' as int)
  }

  /** Reading the rendering back gives the number. */
  lemma {:induction false} ItoaRoundTrip(i: nat)
    ensures DecimalValue(Itoa(i)) == i
    decreases i
  {
    if i >= 10 {
      var s := Itoa(i);
      assert s[..|s| - 1] == Itoa(i / 10);
      ItoaRoundTrip(i / 10);
    }
  }

  /** Different numbers have different renderings. */
  lemma {:induction false} ItoaInjective(i: nat, j: nat)
    requires Itoa(i) == Itoa(j)
    ensures i == j
    decreases i
  {
    if i >= 10 && j >= 10 {
      var si, sj := Itoa(i), Itoa(j);
      assert si[..|si| - 1] == Itoa(i / 10);
      assert sj[..|sj| - 1] == Itoa(j / 10);
      assert Digit(i % 10) == si[|si| - 1] == sj[|sj| - 1] == Digit(j % 10);
      ItoaInjective(i / 10, j / 10);
    }
  }

  /** The key hashed for replica `index` of `e`: the index in decimal,
      immediately followed by the node's name. */
  function ElementKey(e: Node, index: nat): (k: string)
    ensures |k| > |e.name| && k[|k| - |e.name|..] == e.name
  {
    Itoa(index) + e.name
  }

  /** The key can be read back: what precedes the node's name is a decimal
      numeral whose value is the replica index. */
  lemma ElementKeyDecodes(e: Node, index: nat)
    ensures var k := ElementKey(e, index);
            && (forall j :: 0 <= j < |k| - |e.name| ==> IsDigit(k[j]))
            && DecimalValue(k[..|k| - |e.name|]) == index
  {
    var k := ElementKey(e, index);
    assert k[..|Itoa(index)|] == Itoa(index);
    assert forall j :: 0 <= j < |Itoa(index)| ==> Itoa(index)[j] in Itoa(index);
    ItoaRoundTrip(index);
  }

  /** Different replicas of one node have different keys, so they can share a
      position only through a collision of the hash itself. */
  lemma ElementKeyInjective(e: Node, i: nat, j: nat)
    requires ElementKey(e, i) == ElementKey(e, j)
    ensures i == j
  {
    var k := ElementKey(e, i);
    assert |Itoa(i)| == |Itoa(j)|;
    assert Itoa(i) == k[..|Itoa(i)|] == Itoa(j);
    ItoaInjective(i, j);
  }

  /** Replica keys of different nodes can coincide without any hash collision:
      replica 1 of a node named "0a" and replica 10 of a node named "a" both
      hash the key "10a", so they always land on the same position. */
  lemma ElementKeysOfDifferentNodesCanCoincide()
    ensures ElementKey(Node(0, "0a"), 1) == ElementKey(Node(1, "a"), 10)
  {
    assert Itoa(10) == "10";
  }
}

=== FILE: positions.dfy ===
/** Ring positions, the sorted position cache and the clockwise lookup over it. */
module Positions {
  import opened Seqs

  /** A 32-bit ring position (`uint32`). */
  type Pos = x: int | 0 <= x < 0x1_0000_0000

  /** Every entry is smaller than every later entry. */
  ghost predicate StrictlyAscending(s: seq<Pos>)
  {
    forall i, j :: 0 <= i < j < |s| ==> s[i] < s[j]
  }

  predicate IsLeast(m: Pos, keys: set<Pos>)
  {
    m in keys && forall q :: q in keys ==> m <= q
  }

  /** Every non-empty set of positions has a least element. */
  lemma {:induction false} LeastExists(keys: set<Pos>)
    requires keys != {}
    ensures exists m :: IsLeast(m, keys)
    decreases keys
  {
    var x :| x in keys;
    if keys != {x} {
      LeastExists(keys - {x});
      var m :| IsLeast(m, keys - {x});
      assert forall q :: q in keys ==> q == x || q in keys - {x};
      if x < m {
        assert IsLeast(x, keys);
      } else {
        assert IsLeast(m, keys);
      }
    } else {
      assert IsLeast(x, keys);
    }
  }

  /** The sorted position cache for the occupied positions `keys`: every key
      once, in ascending order. The result does not depend on how the keys are
      enumerated (see StrictlyAscendingUnique), so it is built here by taking
      the least remaining key each time. */
  function UpdateSortedHashes(keys: set<Pos>): (hs: seq<Pos>)
    ensures StrictlyAscending(hs)
    ensures Elems(hs) == keys
    decreases keys
  {
    if keys == {} then []
    else
      LeastExists(keys);
      var m :| IsLeast(m, keys);
      var rest := UpdateSortedHashes(keys - {m});
      assert forall j :: 0 <= j < |rest| ==> rest[j] in Elems(rest);
      assert Elems([m] + rest) == {m} + Elems(rest);
      [m] + rest
  }

  /** A set of positions has exactly one strictly ascending enumeration, so
      any rebuild of the cache from the same keys yields the same sequence. */
  lemma {:induction false} StrictlyAscendingUnique(a: seq<Pos>, b: seq<Pos>)
    requires StrictlyAscending(a) && StrictlyAscending(b)
    requires Elems(a) == Elems(b)
    ensures a == b
    decreases |a|
  {
    NoDuplicatesCardinality(a);
    NoDuplicatesCardinality(b);
    if |a| > 0 {
      assert a[0] in Elems(b);
      assert b[0] in Elems(a);
      assert |b| > 0;
      assert a[0] == b[0] by {
        var i :| 0 <= i < |b| && b[i] == a[0];
        var j :| 0 <= j < |a| && a[j] == b[0];
        assert a[0] <= a[j] == b[0] <= b[i] == a[0];
      }
      assert Elems(a[1..]) == Elems(a) - {a[0]} by {
        assert a == [a[0]] + a[1..];
        assert forall x :: x in a[1..] ==> x > a[0];
      }
      assert Elems(b[1..]) == Elems(b) - {b[0]} by {
        assert b == [b[0]] + b[1..];
        assert forall x :: x in b[1..] ==> x > b[0];
      }
      StrictlyAscendingUnique(a[1..], b[1..]);
      assert a == [a[0]] + a[1..];
      assert b == [b[0]] + b[1..];
    }
  }

  /** Go's `sort.Search` over `hs[lo..hi]` with the predicate
      `hs[x] > key`: bisection for the first index whose entry exceeds `key`,
      or `hi` when there is none. */
  function SortSearch(hs: seq<Pos>, key: Pos, lo: nat, hi: nat): (i: nat)
    requires lo <= hi <= |hs|
    requires StrictlyAscending(hs)
    ensures lo <= i <= hi
    ensures forall j :: lo <= j < i ==> hs[j] <= key
    ensures forall j :: i <= j < hi ==> hs[j] > key
    decreases hi - lo
  {
    if lo >= hi then lo
    else
      var mid := (lo + hi) / 2;
      if !(hs[mid] > key) then SortSearch(hs, key, mid + 1, hi)
      else SortSearch(hs, key, lo, mid)
  }

  /** `search`: the index of the first cached position strictly greater than
      `key`, wrapping to index 0 when no position is. */
  function Search(hs: seq<Pos>, key: Pos): (i: nat)
    requires StrictlyAscending(hs)
    ensures |hs| == 0 ==> i == 0
    ensures |hs| > 0 ==> i < |hs|
    ensures |hs| > 0 ==>
              (hs[i] > key && forall j :: 0 <= j < i ==> hs[j] <= key)
              || (i == 0 && forall j :: 0 <= j < |hs| ==> hs[j] <= key)
  {
    var i := SortSearch(hs, key, 0, |hs|);
    if i >= |hs| then 0 else i
  }

  /** `p` is the occupied position met first when walking clockwise from just
      after `key`: the least position above `key`, or the least position of all
      when none is above it. */
  ghost predicate ClockwiseSuccessor(keys: set<Pos>, key: Pos, p: Pos)
  {
    && p in keys
    && (|| (p > key && forall q :: q in keys && q > key ==> p <= q)
        || ((forall q :: q in keys ==> q <= key) && forall q :: q in keys ==> p <= q))
  }

  /** `search` finds the clockwise successor of `key` among the cached positions. */
  lemma SearchFindsSuccessor(hs: seq<Pos>, key: Pos)
    requires StrictlyAscending(hs) && |hs| > 0
    ensures ClockwiseSuccessor(Elems(hs), key, hs[Search(hs, key)])
  {
    var i := Search(hs, key);
    forall q | q in Elems(hs)
      ensures q > key ==> hs[i] > key ==> hs[i] <= q
      ensures (forall j :: 0 <= j < |hs| ==> hs[j] <= key) ==> q <= key && hs[i] <= q
    {
      var j :| 0 <= j < |hs| && hs[j] == q;
    }
  }

  /** At most one position is the clockwise successor of a key. */
  lemma SuccessorUnique(keys: set<Pos>, key: Pos, p: Pos, p': Pos)
    requires ClockwiseSuccessor(keys, key, p) && ClockwiseSuccessor(keys, key, p')
    ensures p == p'
  {
  }

  /** A successor among more positions that is itself one of fewer positions
      is also the successor among the fewer: removing other positions, or
      looking at a superset before positions were added, does not move it. */
  lemma SuccessorOfSubset(keys: set<Pos>, more: set<Pos>, key: Pos, p: Pos)
    requires keys <= more && p in keys
    requires ClockwiseSuccessor(more, key, p)
    ensures ClockwiseSuccessor(keys, key, p)
  {
  }
}

=== FILE: properties.dfy ===
/** Properties that relate several ring operations: how far a mutation moves
    lookups, when the cache rebuild changes nothing, and how the counter
    drifts from the membership under repeated calls. */
module RingProperties {
  import opened Wrappers
  import opened Seqs
  import opened Nodes
  import opened Positions
  import opened Consistent

  /** Rebuilding the cache of a consistent ring reproduces it exactly: the
      cache is a function of the occupied positions alone, whatever order they
      are enumerated in and whether the backing storage is reused or not. */
  lemma RebuildIsStable(r: Ring)
    requires CacheConsistent(r)
    ensures UpdateSortedHashes(r.circle.Keys) == r.sortedHashes
  {
    StrictlyAscendingUnique(UpdateSortedHashes(r.circle.Keys), r.sortedHashes);
  }

  /** `after` is `before` with every position of `placed` assigned to `e`
      and nothing else changed. */
  ghost predicate PlacedOnto(before: map<Pos, Node>, after: map<Pos, Node>, placed: set<Pos>, e: Node)
  {
    && (forall q :: q in placed ==> q in after && after[q] == e)
    && (forall q :: q !in placed ==>
          (q in after <==> q in before) && (q in before ==> after[q] == before[q]))
  }

  /** Placing positions onto `e` keeps `e` the only owner of a circle `e`
      alone owned before. */
  lemma PlacingKeepsSoleOwner(before: map<Pos, Node>, after: map<Pos, Node>, placed: set<Pos>, e: Node)
    requires PlacedOnto(before, after, placed, e)
    requires forall q :: q in before ==> before[q] == e
    ensures forall q :: q in after ==> after[q] == e
  {
  }

  /** `Add` places the replica positions of the added node onto it. */
  lemma AddPlacesReplicas(r: Ring, e: Node)
    requires RebuildDivides(r.replicas)
    ensures PlacedOnto(r.circle, Add(r, e).circle, ReplicaPositions(r.hash, e, r.replicas), e)
  {
    var r' := Add(r, e);
    forall q | q in ReplicaPositions(r.hash, e, r.replicas)
      ensures q in r'.circle && r'.circle[q] == e
    {
      var i: nat :| i < r.replicas && q == r.hash(ElementKey(e, i));
    }
  }

  /** `Remove` frees every replica position of the removed node. */
  lemma RemoveDeletesReplicas(r: Ring, e: Node)
    requires RebuildDivides(r.replicas)
    ensures forall q :: q in ReplicaPositions(r.hash, e, r.replicas) ==> q !in Remove(r, e).circle
  {
    forall q | q in ReplicaPositions(r.hash, e, r.replicas)
      ensures q !in Remove(r, e).circle
    {
      var i: nat :| i < r.replicas && q == r.hash(ElementKey(e, i));
    }
  }

  /** On a circle where `placed` was (re)assigned to `e` and nothing else
      changed, a clockwise successor either belongs to `e` or already was the
      successor, with the same owner, before. */
  lemma SuccessorAfterPlacing(before: map<Pos, Node>, after: map<Pos, Node>, placed: set<Pos>,
                              e: Node, key: Pos, p: Pos)
    requires PlacedOnto(before, after, placed, e)
    requires ClockwiseSuccessor(after.Keys, key, p)
    ensures after[p] == e || (ClockwiseSuccessor(before.Keys, key, p) && after[p] == before[p])
  {
    if p !in placed {
      SuccessorOfSubset(before.Keys, after.Keys, key, p);
    }
  }

  /** Adding a node moves a key, if at all, onto the added node. */
  lemma AddMovesKeysOnlyToAddedNode(r: Ring, e: Node, name: string)
    requires CacheConsistent(r) && RebuildDivides(r.replicas)
    ensures Get(Add(r, e), name) == Get(r, name) || Get(Add(r, e), name) == Success(e)
  {
    var r' := Add(r, e);
    var key := r.hash(name);
    var placed := ReplicaPositions(r.hash, e, r.replicas);
    AddPlacesReplicas(r, e);
    if |r'.circle| > 0 {
      var p' := OwnerPosition(r', name);
      SuccessorAfterPlacing(r.circle, r'.circle, placed, e, key, p');
      if r'.circle[p'] != e {
        SuccessorUnique(r.circle.Keys, key, OwnerPosition(r, name), p');
      }
    }
  }

  /** None of `b`'s replica positions is owned by another node (no hash
      collision hands one of them to someone else). */
  ghost predicate NoForeignCollision(r: Ring, b: Node)
  {
    forall p :: p in r.circle && p in ReplicaPositions(r.hash, b, r.replicas) ==> r.circle[p] == b
  }

  /** Removing `b` leaves every key that did not map to `b` where it was, and
      no key maps to `b` afterwards. */
  lemma RemoveMovesOnlyKeysOfRemovedNode(r: Ring, b: Node, name: string)
    requires Valid(r) && RebuildDivides(r.replicas) && NoForeignCollision(r, b)
    ensures Get(r, name).Success? && Get(r, name).value != b ==> Get(Remove(r, b), name) == Get(r, name)
    ensures Get(Remove(r, b), name).Success? ==> Get(Remove(r, b), name).value != b
  {
    var r' := Remove(r, b);
    var key := r.hash(name);
    if Get(r, name).Success? && Get(r, name).value != b {
      var p :| ClockwiseSuccessor(r.circle.Keys, key, p) && r.circle[p] == Get(r, name).value;
      assert p !in ReplicaPositions(r.hash, b, r.replicas);
      assert p in r'.circle && r'.circle[p] == r.circle[p];
      SuccessorOfSubset(r'.circle.Keys, r.circle.Keys, key, p);
      var p' :| ClockwiseSuccessor(r'.circle.Keys, key, p') && r'.circle[p'] == Get(r', name).value;
      SuccessorUnique(r'.circle.Keys, key, p, p');
    }
  }

  /** Removing a node that is not registered changes neither the table, the
      membership nor the cache, so every lookup is unchanged. */
  lemma RemoveAbsentKeepsLookups(r: Ring, e: Node, name: string)
    requires Valid(r) && RebuildDivides(r.replicas) && e !in r.members && NoForeignCollision(r, e)
    ensures Remove(r, e).circle == r.circle && Remove(r, e).members == r.members
    ensures Remove(r, e).sortedHashes == r.sortedHashes
    ensures Get(Remove(r, e), name) == Get(r, name)
  {
    var r' := Remove(r, e);
    forall p | p in r.circle
      ensures p !in ReplicaPositions(r.hash, e, r.replicas)
    {
      assert r.circle[p] in r.members;
    }
    RemoveDeletesReplicas(r, e);
    DeletingPlacedRestores(r.circle, r.circle, ReplicaPositions(r.hash, e, r.replicas), r'.circle);
    StrictlyAscendingUnique(r'.sortedHashes, r.sortedHashes);
  }

  /** Deleting the positions just placed restores a circle in which none of
      them was occupied. */
  lemma DeletingPlacedRestores(before: map<Pos, Node>, after: map<Pos, Node>, placed: set<Pos>, back: map<Pos, Node>)
    requires forall q :: q in placed ==> q !in before && q !in back
    requires forall q :: q !in placed ==>
               (q in after <==> q in before) && (q in before ==> after[q] == before[q])
    requires forall q :: q !in placed ==>
               (q in back <==> q in after) && (q in after ==> back[q] == after[q])
    ensures back == before
  {
    assert back.Keys == before.Keys;
  }

  /** `Remove` undoes `Add` of a node whose replica positions were all free:
      the table, the cache and the counter are as before, and the node is no
      longer registered. */
  lemma RemoveUndoesAdd(r: Ring, e: Node)
    requires CacheConsistent(r) && RebuildDivides(r.replicas)
    requires forall p :: p in ReplicaPositions(r.hash, e, r.replicas) ==> p !in r.circle
    ensures Remove(Add(r, e), e).circle == r.circle
    ensures Remove(Add(r, e), e).sortedHashes == r.sortedHashes
    ensures Remove(Add(r, e), e).members == r.members - {e}
    ensures Remove(Add(r, e), e).count == r.count
  {
    var r1 := Add(r, e);
    var r2 := Remove(r1, e);
    var placed := ReplicaPositions(r.hash, e, r.replicas);
    RemoveDeletesReplicas(r1, e);
    DeletingPlacedRestores(r.circle, r1.circle, placed, r2.circle);
    StrictlyAscendingUnique(r2.sortedHashes, r.sortedHashes);
  }

  /** As written, adding a node twice counts it twice: afterwards the counter
      exceeds the number of registered nodes, whatever the ring held before. */
  lemma AddTwiceCountsTwice(r: Ring, e: Node)
    requires RebuildDivides(r.replicas) && CountAccurate(r)
    ensures var r2 := Add(Add(r, e), e);
            r2.members == r.members + {e} && r2.count == |r.members| + 2 && !CountAccurate(r2)
  {
    assert |r.members + {e}| <= |r.members| + 1;
  }

  /** Adding `e` to a circle only `e` owns leaves a non-empty circle only `e` owns. */
  lemma AddKeepsSoleOwner(r: Ring, e: Node)
    requires r.replicas >= 1 && RebuildDivides(r.replicas)
    requires forall q :: q in r.circle ==> r.circle[q] == e
    ensures |Add(r, e).circle| > 0
    ensures forall q :: q in Add(r, e).circle ==> Add(r, e).circle[q] == e
  {
    assert r.hash(ElementKey(e, 0)) in Add(r, e).circle;
    AddPlacesReplicas(r, e);
    PlacingKeepsSoleOwner(r.circle, Add(r, e).circle, ReplicaPositions(r.hash, e, r.replicas), e);
  }

  /** A non-empty circle whose every position `e` owns has `e` as its only owner. */
  lemma SoleOwnerValues(circle: map<Pos, Node>, e: Node)
    requires |circle| > 0
    requires forall q :: q in circle ==> circle[q] == e
    ensures circle.Values == {e}
  {
    var p :| p in circle;
    assert circle[p] in circle.Values;
  }

  /** The consequence on a ring without owners: after adding `e` twice the
      circle has the single owner `e` but the counter says 2, so `GetTwo` does
      not take its single-member exit and either answers `e` twice or, when
      the walk starts at index 0, never returns. */
  lemma AddTwiceLeavesOneOwnerCountedTwice(r: Ring, e: Node)
    requires r.replicas >= 1 && RebuildDivides(r.replicas) && |r.circle| == 0 && r.members == {} && CountAccurate(r)
    ensures var r2 := Add(Add(r, e), e);
            r2.circle.Values == {e} && r2.count == 2 && |r2.circle| > 0
  {
    var r1 := Add(r, e);
    AddKeepsSoleOwner(r, e);
    assert r1.count == 1 && r1.replicas == r.replicas;
    AddToSoleOwner(r1, e);
  }

  /** Adding `e` again to a ring only `e` owns, with counter 1, keeps `e` the
      only owner and raises the counter to 2. */
  lemma AddToSoleOwner(r: Ring, e: Node)
    requires r.replicas >= 1 && RebuildDivides(r.replicas) && r.count == 1
    requires forall q :: q in r.circle ==> r.circle[q] == e
    ensures Add(r, e).circle.Values == {e} && Add(r, e).count == 2 && |Add(r, e).circle| > 0
  {
    AddKeepsSoleOwner(r, e);
    SoleOwnerValues(Add(r, e).circle, e);
  }

  /** As written, removing a node that is not registered still decrements the
      counter, which drops below the number of registered nodes. */
  lemma RemoveAbsentCountsNegative(r: Ring, e: Node)
    requires RebuildDivides(r.replicas) && CountAccurate(r) && e !in r.members
    ensures var r' := Remove(r, e);
            r'.members == r.members && r'.count == |r.members| - 1 && !CountAccurate(r')
  {
    assert r.members - {e} == r.members;
  }

  /** A negative counter clamps every `GetN` limit below zero, so on a
      non-empty circle every `GetN` call panics. */
  lemma NegativeCounterPanicsGetN(r: Ring, n: int)
    requires |r.circle| > 0 && r.count < 0
    ensures !GetNNoPanic(r, n)
  {
  }

  /** A reachable ring with a negative counter and an occupied circle: remove
      an unregistered node twice from an empty ring with an accurate counter,
      then add another node. */
  lemma RemoveTwiceThenAddPanicsGetN(r: Ring, a: Node, b: Node, n: int)
    requires r.replicas >= 1 && RebuildDivides(r.replicas) && r.members == {} && CountAccurate(r)
    ensures var r2 := Add(Remove(Remove(r, a), a), b);
            r2.count == -1 && |r2.circle| > 0 && !GetNNoPanic(r2, n)
  {
    var r1 := Remove(Remove(r, a), a);
    assert r1.count == -2 && r1.replicas == r.replicas;
    AddOccupies(r1, b);
    NegativeCounterPanicsGetN(Add(r1, b), n);
  }

  /** Adding a node with at least one replica leaves the circle occupied. */
  lemma AddOccupies(r: Ring, e: Node)
    requires r.replicas >= 1 && RebuildDivides(r.replicas)
    ensures |Add(r, e).circle| > 0
  {
    assert r.hash(ElementKey(e, 0)) in Add(r, e).circle;
  }

  /** Removing a node that was never registered can still delete a position a
      registered node owns: replica 10 of a node named "a" has the key of
      replica 1 of a node named "0a". */
  lemma RemoveAbsentDeletesCollidingPosition(r: Ring)
    requires r.replicas >= 11 && RebuildDivides(r.replicas) && Node(1, "a") !in r.members
    ensures var r1 := Add(r, Node(0, "0a"));
            var p := r.hash(ElementKey(Node(0, "0a"), 1));
            && Node(1, "a") !in r1.members
            && p in r1.circle && r1.circle[p] == Node(0, "0a")
            && Remove(r1, Node(1, "a")).members == r1.members
            && p !in Remove(r1, Node(1, "a")).circle
  {
    var r1 := Add(r, Node(0, "0a"));
    AddOwnsReplica(r, Node(0, "0a"), 1);
    RemoveDeletesReplica(r1, Node(1, "a"), 10);
    ElementKeysOfDifferentNodesCanCoincide();
    RemoveAbsentKeepsMembers(r1, Node(1, "a"));
  }

  /** Removing an unregistered node leaves the membership as it is. */
  lemma RemoveAbsentKeepsMembers(r: Ring, e: Node)
    requires RebuildDivides(r.replicas) && e !in r.members
    ensures Remove(r, e).members == r.members
  {
    assert r.members - {e} == r.members;
  }

  /** Replica `i` of an added node is placed and owned by that node. */
  lemma AddOwnsReplica(r: Ring, e: Node, i: nat)
    requires RebuildDivides(r.replicas) && i < r.replicas
    ensures var p := r.hash(ElementKey(e, i));
            p in Add(r, e).circle && Add(r, e).circle[p] == e
    ensures Add(r, e).members == r.members + {e} && Add(r, e).replicas == r.replicas && Add(r, e).hash == r.hash
  {
  }

  /** Replica `i` of a removed node is no longer placed. */
  lemma RemoveDeletesReplica(r: Ring, e: Node, i: nat)
    requires RebuildDivides(r.replicas) && i < r.replicas
    ensures r.hash(ElementKey(e, i)) !in Remove(r, e).circle
    ensures Remove(r, e).members == r.members - {e}
  {
  }

  /** With the membership guard, adding a node twice counts it once. */
  lemma AddGuardedTwiceCountsOnce(r: Ring, e: Node)
    requires RebuildDivides(r.replicas) && CountAccurate(r)
    ensures var r2 := AddGuarded(AddGuarded(r, e), e);
            r2.members == r.members + {e} && r2.count == |r.members + {e}|
  {
  }

  /** With the membership guard, removing an absent node leaves the counter alone. */
  lemma RemoveGuardedAbsentKeepsCount(r: Ring, e: Node)
    requires RebuildDivides(r.replicas) && CountAccurate(r) && e !in r.members
    ensures RemoveGuarded(r, e).members == r.members && RemoveGuarded(r, e).count == r.count
  {
  }
}

=== FILE: seqs.dfy ===
/** Facts about sequences used by the ring: element sets, duplicates and
    "distinct elements in order of first appearance". */
module Seqs {

  /** The set of elements of a sequence. */
  function Elems<T>(s: seq<T>): set<T>
  {
    set x | x in s
  }

  /** No element occurs twice. */
  ghost predicate NoDuplicates<T>(s: seq<T>)
  {
    forall i, j :: 0 <= i < j < |s| ==> s[i] != s[j]
  }

  /** The distinct elements of `s`, each at the place of its first occurrence.
      Defined from the back, the way an accumulating loop builds it; that it
      holds each element of `s` exactly once is `DedupDistinct`. */
  function Dedup<T(==)>(s: seq<T>): (d: seq<T>)
    ensures |s| > 0 ==> |d| > 0 && d[0] == s[0]
    ensures |d| <= |s|
    decreases |s|
  {
    if |s| == 0 then []
    else
      var init := s[..|s| - 1];
      var d := Dedup(init);
      if s[|s| - 1] in d then d else d + [s[|s| - 1]]
  }

  /** The first-appearance list holds every element of `s` and none twice. */
  lemma {:induction false} DedupDistinct<T>(s: seq<T>)
    ensures NoDuplicates(Dedup(s))
    ensures Elems(Dedup(s)) == Elems(s)
    decreases |s|
  {
    if |s| > 0 {
      var init := s[..|s| - 1];
      var last := s[|s| - 1];
      var d := Dedup(init);
      DedupDistinct(init);
      assert s == init + [last];
      assert Elems(s) == Elems(init) + {last};
      if last !in d {
        assert Elems(d + [last]) == Elems(d) + {last};
      }
    }
  }

  /** One more element of `s` extends the first-appearance list by that
      element exactly when it has not been seen yet. */
  lemma DedupStep<T>(s: seq<T>, k: nat)
    requires k < |s|
    ensures Dedup(s[..k + 1]) == if s[k] in Dedup(s[..k]) then Dedup(s[..k]) else Dedup(s[..k]) + [s[k]]
  {
    assert s[..k + 1][..k] == s[..k];
  }

  /** The first-appearance list of a prefix is a prefix of the first-appearance list. */
  lemma {:induction false} DedupPrefix<T>(s: seq<T>, m: nat)
    requires m <= |s|
    ensures |Dedup(s[..m])| <= |Dedup(s)|
    ensures Dedup(s[..m]) == Dedup(s)[..|Dedup(s[..m])|]
    decreases |s| - m
  {
    if m == |s| {
      assert s[..m] == s;
    } else {
      DedupPrefix(s, m + 1);
      DedupStep(s, m);
    }
  }

  /** The whole sequence as a prefix of itself. */
  lemma DedupWhole<T>(s: seq<T>)
    ensures Dedup(s[..|s|]) == Dedup(s)
  {
    assert s[..|s|] == s;
  }

  /** A sequence whose first `k` elements all equal `a` has `[a]` as the
      first-appearance list of that prefix. */
  lemma {:induction false} DedupConstant<T>(s: seq<T>, k: nat, a: T)
    requires 1 <= k <= |s|
    requires forall j :: 0 <= j < k ==> s[j] == a
    ensures Dedup(s[..k]) == [a]
  {
    if k > 1 {
      DedupConstant(s, k - 1, a);
      DedupStep(s, k - 1);
    } else {
      assert s[..1] == [a];
    }
  }

  /** A non-empty sequence of copies of `a` has `[a]` as its first-appearance list. */
  lemma DedupAllSame<T>(s: seq<T>, a: T)
    requires |s| >= 1
    requires forall j :: 0 <= j < |s| ==> s[j] == a
    ensures Dedup(s) == [a]
  {
    DedupConstant(s, |s|, a);
    assert s[..|s|] == s;
  }

  /** Along a sequence that starts with `k` copies of `a`, the first element
      other than `a` is the second distinct element. */
  lemma DedupSecond<T>(s: seq<T>, k: nat, a: T)
    requires 1 <= k < |s|
    requires forall j :: 0 <= j < k ==> s[j] == a
    requires s[k] != a
    ensures |Dedup(s)| >= 2 && Dedup(s)[1] == s[k]
  {
    DedupConstant(s, k, a);
    DedupStep(s, k);
    DedupPrefix(s, k + 1);
  }

  /** Growing a prefix by one element adds that element to its element set. */
  lemma ElemsPrefixStep<T>(s: seq<T>, j: nat)
    requires j < |s|
    ensures Elems(s[..j + 1]) == Elems(s[..j]) + {s[j]}
  {
    assert s[..j + 1] == s[..j] + [s[j]];
  }

  /** A duplicate-free sequence has as many elements as its element set. */
  lemma {:induction false} NoDuplicatesCardinality<T>(s: seq<T>)
    requires NoDuplicates(s)
    ensures |Elems(s)| == |s|
  {
    if |s| > 0 {
      var init := s[..|s| - 1];
      NoDuplicatesCardinality(init);
      assert s == init + [s[|s| - 1]];
      assert Elems(s) == Elems(init) + {s[|s| - 1]};
      assert s[|s| - 1] !in Elems(init);
    }
  }

  /** The first-appearance list has one entry per distinct element. */
  lemma DedupCardinality<T>(s: seq<T>)
    ensures |Dedup(s)| == |Elems(s)|
  {
    DedupDistinct(s);
    NoDuplicatesCardinality(Dedup(s));
  }
}

=== FILE: walks.dfy ===
/** The clockwise walks over the position cache that `GetTwo` and `GetN`
    perform. They need only the placement table and the cache, with every
    cached position occupied. */
module Walks {
  import opened Seqs
  import opened Nodes
  import opened Positions

  /** Every cached position has an owner. */
  ghost predicate Occupied(circle: map<Pos, Node>, hs: seq<Pos>)
  {
    forall j :: 0 <= j < |hs| ==> hs[j] in circle
  }

  /** The cache index `k` steps clockwise from `start`, on a cache of `n` positions. */
  function Wrap(start: nat, k: nat, n: nat): nat
  {
    if start + k < n then start + k else start + k - n
  }

  /** The owners met walking the cache once round clockwise from `start`. */
  ghost function Walk(circle: map<Pos, Node>, hs: seq<Pos>, start: nat): (w: seq<Node>)
    requires Occupied(circle, hs) && start < |hs|
    ensures |w| == |hs|
    ensures forall k :: 0 <= k < |w| ==> w[k] == circle[hs[Wrap(start, k, |hs|)]]
  {
    seq(|hs|, k requires 0 <= k < |hs| => circle[hs[Wrap(start, k, |hs|)]])
  }

  /** When the cache lists every occupied position, one round of the walk
      meets every owner on the circle and nothing else. */
  lemma WalkCoversOwners(circle: map<Pos, Node>, hs: seq<Pos>, start: nat)
    requires Occupied(circle, hs) && start < |hs|
    requires circle.Keys <= Elems(hs)
    ensures Elems(Walk(circle, hs, start)) == circle.Values
  {
    var n := |hs|;
    var w := Walk(circle, hs, start);
    forall v | v in circle.Values
      ensures v in Elems(w)
    {
      var p :| p in circle && circle[p] == v;
      assert p in Elems(hs);
      var j :| 0 <= j < n && hs[j] == p;
      var k := if j >= start then j - start else j + n - start;
      assert w[k] == v;
    }
  }

  /** The index Go's loop variable holds `k` steps after `start` (before the
      reset to 0) is the walk's `k`-th index. */
  lemma WalkAt(circle: map<Pos, Node>, hs: seq<Pos>, start: nat, k: nat, i: int)
    requires Occupied(circle, hs) && start < |hs| && k < |hs|
    requires i == if start + k < |hs| then start + k else start + k - |hs|
    ensures 0 <= i < |hs| && circle[hs[i]] == Walk(circle, hs, start)[k]
  {
  }

  /** `sliceContainsMember`: whether `member` occurs in `s`. */
  method SliceContainsMember(s: seq<Node>, member: Node) returns (found: bool)
    ensures found <==> member in s
  {
    var j := 0;
    while j < |s|
      invariant 0 <= j <= |s|
      invariant member !in s[..j]
    {
      if s[j] == member {
        return true;
      }
      j := j + 1;
    }
    return false;
  }

  /** The walk loop of `GetTwo`: starting just after `start`, step clockwise
      (Go's `i`, reset to 0 when it runs off the end) until an owner other than
      `a` turns up or the index comes back to `start`. With a single owner and
      `start == 0` the loop never ends, hence the precondition. */
  method NextOwner(circle: map<Pos, Node>, hs: seq<Pos>, start: nat, a: Node) returns (b: Node)
    requires Occupied(circle, hs) && start < |hs| && circle[hs[start]] == a
    requires |Dedup(Walk(circle, hs, start))| >= 2 || start != 0
    ensures |Dedup(Walk(circle, hs, start))| >= 2 ==> b == Dedup(Walk(circle, hs, start))[1] && b != a
    ensures |Dedup(Walk(circle, hs, start))| < 2 ==> b == a
  {
    ghost var w := Walk(circle, hs, start);
    ghost var k: nat := 1;
    assert w[0] == a;
    b := a;
    var i := start + 1;
    while i != start
      invariant 1 <= k <= |hs|
      invariant i == if start + k <= |hs| then start + k else start + k - |hs|
      invariant start == 0 ==> k < |hs|
      invariant forall j :: 0 <= j < k ==> w[j] == a
      invariant b == a
      decreases |hs| - k
    {
      if i >= |hs| {
        i := 0;
      }
      WalkAt(circle, hs, start, k, i);
      b := circle[hs[i]];
      if b != a {
        DedupSecond(w, k, a);
        return;
      }
      i := i + 1;
      k := k + 1;
      if start == 0 && k == |hs| {
        DedupAllSame(w, a);
      }
    }
    DedupAllSame(w, a);
  }

  /** The first `limit` entries of `s`, or all of `s` when `limit` is larger
      than its length or 0: a limit of 0 never equals the length of a
      non-empty result, so the walk only stops at its end. (`GetN` panics
      before walking on a negative limit.) */
  function Limit<T>(s: seq<T>, limit: int): seq<T>
  {
    if 1 <= limit <= |s| then s[..limit] else s
  }

  /** The collecting walk of `GetN`: the owner at `start` first, then every
      owner not collected yet, stepping clockwise (Go's `i`, reset to 0 when it
      runs off the end), until `limit` owners are collected or the index comes
      back to `start`. With `start == 0` and fewer than `limit` owners, or a
      limit of 0, the loop never ends, hence the precondition; a negative
      limit never reaches the walk. */
  method CollectOwners(circle: map<Pos, Node>, hs: seq<Pos>, start: nat, limit: int) returns (res: seq<Node>)
    requires Occupied(circle, hs) && start < |hs| && limit >= 0
    requires 1 <= limit <= |Dedup(Walk(circle, hs, start))| || start != 0
    ensures res == Limit(Dedup(Walk(circle, hs, start)), limit)
  {
    ghost var w := Walk(circle, hs, start);
    var elem := circle[hs[start]];
    assert elem == w[0];
    res := [elem];
    DedupConstant(w, 1, elem);
    if |res| == limit {
      DedupPrefix(w, 1);
      return;
    }
    res := CollectRest(circle, hs, start, limit, res);
  }

  /** The loop of `CollectOwners`, entered with the owner at `start` collected
      and fewer than `limit` owners so far. */
  method CollectRest(circle: map<Pos, Node>, hs: seq<Pos>, start: nat, limit: int, first: seq<Node>)
    returns (res: seq<Node>)
    requires Occupied(circle, hs) && start < |hs|
    requires 1 <= limit <= |Dedup(Walk(circle, hs, start))| || start != 0
    requires first == Dedup(Walk(circle, hs, start)[..1])
    requires limit >= 1 ==> |first| < limit
    ensures res == Limit(Dedup(Walk(circle, hs, start)), limit)
  {
    ghost var w := Walk(circle, hs, start);
    res := first;
    ghost var k: nat := 1;
    var i := start + 1;
    while i != start
      invariant 1 <= k <= |hs|
      invariant i == if start + k <= |hs| then start + k else start + k - |hs|
      invariant res == Dedup(w[..k])
      invariant limit >= 1 ==> |res| < limit
      invariant start == 0 ==> k < |hs|
      decreases |hs| - k
    {
      if i >= |hs| {
        i := 0;
      }
      WalkAt(circle, hs, start, k, i);
      var elem := circle[hs[i]];
      var seen := SliceContainsMember(res, elem);
      ghost var before := res;
      if !seen {
        res := res + [elem];
      }
      CollectAdvance(w, k, before, elem, res, limit, start);
      if |res| == limit {
        return;
      }
      i := i + 1;
      k := k + 1;
    }
    WalkExhausted(w, k, res, limit);
  }

  /** One step of the collecting walk: the list grows by the `k`-th walk entry
      unless it is there already, and either reaches the limit (and is then the
      limited list) or stays below it, with the walk not yet exhausted when it
      started at index 0. */
  lemma CollectAdvance(w: seq<Node>, k: nat, res: seq<Node>, elem: Node, res': seq<Node>, limit: int, start: nat)
    requires k < |w| && res == Dedup(w[..k]) && elem == w[k]
    requires res' == if elem in res then res else res + [elem]
    requires limit >= 1 ==> |res| < limit
    requires 1 <= limit <= |Dedup(w)| || start != 0
    ensures res' == Dedup(w[..k + 1])
    ensures |res'| == limit ==> res' == Limit(Dedup(w), limit)
    ensures |res'| != limit ==> (limit >= 1 ==> |res'| < limit) && (start == 0 ==> k + 1 < |w|)
  {
    DedupStep(w, k);
    if k + 1 == |w| {
      DedupWhole(w);
    }
    if |res'| == limit {
      LimitReached(w, k + 1, res', limit);
    }
  }

  /** A walk prefix whose distinct owners reach the limit yields the limited list. */
  lemma LimitReached(w: seq<Node>, k: nat, res: seq<Node>, limit: int)
    requires 1 <= k <= |w| && res == Dedup(w[..k]) && |res| == limit
    ensures res == Limit(Dedup(w), limit)
  {
    DedupPrefix(w, k);
    assert w[..k][0] == w[0];
  }

  /** A completed walk that never reached the limit yields every owner. */
  lemma WalkExhausted(w: seq<Node>, k: nat, res: seq<Node>, limit: int)
    requires k == |w| && res == Dedup(w[..k]) && (limit >= 1 ==> |res| < limit)
    ensures res == Limit(Dedup(w), limit)
  {
    DedupWhole(w);
  }

  /** A limited list keeps the first entry, has no duplicates when the list
      has none, and draws its elements from the list. */
  lemma LimitKeepsOrder<T>(s: seq<T>, limit: int)
    requires |s| >= 1 && NoDuplicates(s)
    ensures |Limit(s, limit)| >= 1 && Limit(s, limit)[0] == s[0]
    ensures NoDuplicates(Limit(s, limit)) && Elems(Limit(s, limit)) <= Elems(s)
    ensures 1 <= limit <= |s| ==> |Limit(s, limit)| == limit
    ensures limit < 1 || |s| <= limit ==> Limit(s, limit) == s
  {
  }
}

=== FILE: wrappers.dfy ===
/** Failure-compatible return types for the ring's operations. */
module Wrappers {

  /** An optional value; `None` plays the part of a nil interface value. */
  datatype Option<+T> = None | Some(value: T)

  /** Either a value or an error, the shape of a Go `(value, error)` pair. */
  datatype Result<+T, +E> = Success(value: T) | Failure(error: E)
}
